=== FILE: README.md ===
# Sv39 boot page table of `mmu_scheme`

A Dafny model of the boot-time MMU set-up in `lesson1/mmu_scheme/src/lib.rs`,
for the `sv39` build configuration:

- `pre_mmu` writes three 1 GiB leaf entries into the zero-initialised root
  table: an identity window over the kernel's physical load region
  (0x8000_0000..0xc000_0000), the same region at the direct-map offset
  (0xffff_ffc0_8000_0000..), and the top gigabyte where the kernel runs after
  relocation (`KERNEL_BASE` 0xffff_ffff_c000_0000..2^64);
- `enable_mmu` installs the table in `satp` with mode Sv39 and ASID 0;
- `post_mmu` adds `PHYS_VIRT_OFFSET` to `sp` and `ra` and returns through the
  new `ra`.

The hardware side comes from the RISC-V Privileged Architecture (version
20211203): the page-table-entry layout of section 4.4.1 (`Pte`), the `satp`
layout of section 4.1.11 (`Satp`) and the virtual-address translation process
of section 4.3.2 with the Sv39 parameters of section 4.4 (`Sv39`). The walk is
the full three-level process, over a memory given as a map from table
addresses to 512-entry tables. With it the model states what the three writes
mean, and not only which bits they set. Every address of each window
translates to the same offset in the physical window. Nothing else
translates. The identity window stays identity-mapped across the switch. The
direct-map offset `post_mmu` applies lands on an address that translates back
to the original physical address.

Files: `pte.dfy`, `satp.dfy`, `sv39.dfy` (architecture), `mmu_scheme.dfy`
(the constants and functions of `lesson1/mmu_scheme/src/lib.rs`), `boot_proofs.dfy` (properties of the built table).

Sv39 has three levels; the code places its three gigapage leaves in the root
table, and so does the model.

## Model

| member | source | states |
|---|---|---|
| Pte.FlagByte | lesson1/mmu_scheme/src/lib.rs:17-18 | the flag byte of a flag record is below 0x100 and decodes back to the same V/R/W/X/U/G/A/D record |
| Pte.Encode | lesson1/mmu_scheme/src/lib.rs:18 | packing high bits, PPN, RSW and flags into an entry word (PPN at bit 10) is undone by `Pte.Decode` |
| Pte.EncodeDecode | lesson1/mmu_scheme/src/lib.rs:18 | every 64-bit entry word is the encoding of its decoded fields, so no bit is lost |
| Pte.Decode | lesson1/mmu_scheme/src/lib.rs:18 | the decoded fields are in range: 10 high bits, a 44-bit PPN, 2 RSW bits |
| Satp.Decode | lesson1/mmu_scheme/src/lib.rs:52 | the decoded fields are in range: a 4-bit MODE, a 16-bit ASID and a 44-bit PPN |
| Satp.Encode | lesson1/mmu_scheme/src/lib.rs:52 | packing MODE (bits 63:60), ASID (59:44) and PPN (43:0) is undone by `Satp.Decode` |
| Satp.EncodeDecode | lesson1/mmu_scheme/src/lib.rs:52 | every `satp` value is the encoding of its decoded fields |
| Satp.RootAddress | lesson1/mmu_scheme/src/lib.rs:51-52 | the root table the hardware walks from is 4 KiB aligned and a 56-bit physical address |
| Sv39.LeafAddress | lesson1/mmu_scheme/src/lib.rs:17-23 | a leaf keeps the page offset of the virtual address and yields a 56-bit physical address |
| Sv39.LeafAddressFields | lesson1/mmu_scheme/src/lib.rs:17-23 | for a leaf at level i, the bits below the page size come from the address and the rest from the entry's PPN |
| Sv39.GigapageAddress | lesson1/mmu_scheme/src/lib.rs:17-23 | a gigapage with PPN[1] = PPN[0] = 0 maps VA to PPN[2] << 30 with VA[29:0] in the low bits |
| Sv39.Walk | lesson1/mmu_scheme/src/lib.rs:17-23 | a successful walk, at any level, keeps the page offset and gives a 56-bit physical address; a walk never reports an unsupported mode |
| Sv39.Translate | lesson1/mmu_scheme/src/lib.rs:51-52 | Bare mode is the identity; in Sv39 mode a translated address was canonical and kept its page offset; exactly the modes other than Bare and Sv39 are reported unsupported |
| MmuScheme.BootLeaf | lesson1/mmu_scheme/src/lib.rs:17-23 | the stored word is 0x2000_00ef: PPN 0x80000 (physical 0x8000_0000), flags V, R, W, X, G, A, D set and U clear, a leaf with PPN[1] = PPN[0] = 0 |
| MmuScheme.PreMmu | lesson1/mmu_scheme/src/lib.rs:14-24 | slots 2, 0x102 and 0x1ff decode to the boot leaf; every other slot is unchanged |
| MmuScheme.EnableMmu | lesson1/mmu_scheme/src/lib.rs:48-54 | the `satp` value has mode Sv39, ASID 0, and names the 4 KiB page containing the root table |
| MmuScheme.EnableMmuAlignedRoot | lesson1/mmu_scheme/src/lib.rs:51-52 | for a 4 KiB-aligned root, PPN << 12 equals the root address |
| MmuScheme.Relocate | lesson1/mmu_scheme/src/lib.rs:8 | adding the offset is undone by subtracting it, and wraps around exactly when x >= 2^64 - offset |
| MmuScheme.PostMmu | lesson1/mmu_scheme/src/lib.rs:63-71 | sp and ra are each relocated (moved by `PHYS_VIRT_OFFSET`), t0 holds the offset, and control resumes at the new ra |
| MmuScheme.Sv48IndexAlwaysZero | lesson1/mmu_scheme/src/lib.rs:28-33 | the sv48 index expression `(virt_addr << 10) & 0xef` is 0 for every address |
| BootProofs.RegionSlot | lesson1/mmu_scheme/src/lib.rs:17-23 | every address of a window is canonical, has VPN[2] equal to that window's slot, and has VA[29:0] equal to its offset in the window |
| BootProofs.SlotsAreStartIndices | lesson1/mmu_scheme/src/lib.rs:6 | slots 2, 0x102 and 0x1ff are below 512 and are VPN[2] of 0x8000_0000, 0xffff_ffc0_8000_0000 and `KERNEL_BASE` |
| BootProofs.SlotRegion | lesson1/mmu_scheme/src/lib.rs:17-23 | a canonical address whose VPN[2] is one of the three slots lies in the matching window |
| BootProofs.BootLeafAddress | lesson1/mmu_scheme/src/lib.rs:18 | the boot leaf is a correctly aligned gigapage mapping VA to 0x8000_0000 + VA[29:0] |
| BootProofs.RegionEntry | lesson1/mmu_scheme/src/lib.rs:14-24 | after the switch, a walk of a window address starts at the root table and reads the boot leaf |
| BootProofs.TranslateRegion | lesson1/mmu_scheme/src/lib.rs:17-23 | every supervisor load, store and fetch in any of the three windows translates to 0x8000_0000 plus its offset in the window |
| BootProofs.UserAccessDenied | lesson1/mmu_scheme/src/lib.rs:17-23 | user-mode accesses to the windows page-fault, because U is clear |
| BootProofs.IdentityWindowIsIdentity | lesson1/mmu_scheme/src/lib.rs:17-18 | addresses in 0x8000_0000..0xc000_0000 translate to themselves, so code running there survives the switch |
| BootProofs.OutsideSlot | lesson1/mmu_scheme/src/lib.rs:17-23 | a canonical address outside the three windows selects none of the slots 2, 0x102 and 0x1ff |
| BootProofs.UnmappedFaults | lesson1/mmu_scheme/src/lib.rs:11-24 | in any memory holding at the root the table built from the zero table, an address outside the windows page-faults: as non-canonical, or on an invalid (zero) root entry |
| BootProofs.BootTableMapsExactlyRegions | lesson1/mmu_scheme/src/lib.rs:11-24 | in any memory holding at the root the table built from the zero table, a supervisor access translates if and only if its address lies in one of the three windows |
| BootProofs.DirectMapRoundTrip | lesson1/mmu_scheme/src/lib.rs:8-20 | for pa in 0x8000_0000..0xc000_0000, pa plus the offset is canonical, lies in the direct-map window and translates back to pa |
| BootProofs.PostMmuKeepsTargets | lesson1/mmu_scheme/src/lib.rs:63-71 | after `post_mmu`, the new sp reaches the old physical stack for loads and stores, and the resumed pc fetches from the old physical return address |
| BootProofs.BootTableNonZeroSlots | lesson1/mmu_scheme/src/lib.rs:11-24 | starting from the zero table, exactly slots 2, 0x102 and 0x1ff are non-zero; the other 509 stay 0 |
| BootProofs.BootTableWords | lesson1/mmu_scheme/src/lib.rs:18-23 | slots 2, 0x102 and 0x1ff of the built table each hold the literal word 0x2000_00ef |
| BootProofs.PreMmuIdempotent | lesson1/mmu_scheme/src/lib.rs:14-24 | applying the builder to its own output gives the same table |

## Left out

- The `sv48` branch of `pre_mmu` and `enable_mmu` (lib.rs:25-45, lib.rs:55-60) is not modelled as a construction. Only `MmuScheme.Sv48IndexAlwaysZero` records that every level index it computes is 0. Two more defects are not modelled. Its "branch" entries store a raw table address with R/W/X set, which makes them leaves. Its leaf shifts a virtual-range constant as if it were a frame number.
- `satp::set` and `sfence_vma_all` are calls into the `riscv` crate with hardware side effects. Only the `satp` value is modelled, not the register write or the TLB flush.
- The inline assembly of `post_mmu` is modelled as a function on a record of the four registers it touches. The jump itself is the `pc` field, not control flow.
- `static mut`, `#[link_section]` and `#[cfg(feature)]` are build plumbing. The root table's address is a parameter, and the scheme is fixed to Sv39.
- BootProofs.BootMemory: assumes the root table is 4 KiB-aligned. The Rust type `[u64; 512]` only guarantees 8-byte alignment; page alignment comes from the linker placing `.data.boot_page_table` on a page boundary, and the linker script is not part of this model. For an unaligned root, the contract of `MmuScheme.EnableMmu` (the root address is `root & !0xfff`) already states what the hardware walks from instead.
- Sharing the table between harts, and ordering across the mode switch, are concurrency concerns with nothing to state in sequential code.
- The walk assumes a hart without Svnapot or Svpbmt, with mstatus.SUM = mstatus.MXR = 0, and one that raises a page fault instead of setting A or D in hardware. PMA and PMP checks appear only as a table missing from the memory map (an access fault). In Bare mode the model does not check the physical-address width.
- MmuScheme.EnableMmu: requires a 56-bit root address. How the `riscv` crate treats a wider value is not modelled.
- MmuScheme.Relocate: does not state the result as an integer equation `(x + offset) mod 2^64`. `bv64` addition is that operation by definition, so the contract states the inverse and the wrap-around condition instead.

=== FILE: boot_proofs.dfy ===
/** What the Sv39 boot table means: translation through it, once `enable_mmu`
    has installed it, and what `post_mmu` relies on. */
module BootProofs {
  import Pte
  import Satp
  import Sv39
  import MmuScheme

  /** Physical base of the kernel's load window. */
  const PHYS_BASE: bv64 := 0x8000_0000

  /** Size of one gigapage, the granule of every boot mapping. */
  const GIGA: bv64 := 0x4000_0000

  /** The three virtual windows `pre_mmu` maps, each 1 GiB long. */
  datatype Region = Identity | DirectMap | Kernel

  function Start(r: Region): bv64 {
    match r
    case Identity => PHYS_BASE
    case DirectMap => 0xffff_ffc0_8000_0000
    case Kernel => MmuScheme.KERNEL_BASE
  }

  /** The table slot `pre_mmu` writes for each window. */
  function Slot(r: Region): nat {
    match r
    case Identity => MmuScheme.IDENTITY_INDEX
    case DirectMap => MmuScheme.DIRECT_MAP_INDEX
    case Kernel => MmuScheme.KERNEL_INDEX
  }

  predicate InRegion(r: Region, va: bv64) {
    Start(r) <= va && va - Start(r) < GIGA
  }

  predicate Mapped(va: bv64) {
    InRegion(Identity, va) || InRegion(DirectMap, va) || InRegion(Kernel, va)
  }

  /** The memory a hart sees right after the switch: the root table at `root`
      holds the output of `pre_mmu` (on whatever the table held before).
      The root is assumed 4 KiB-aligned. The Rust type of the static table
      only guarantees 8-byte alignment; the page alignment comes from the
      linker placing `.data.boot_page_table` on a page boundary. For an
      unaligned root, `MmuScheme.EnableMmu` states what the hardware does
      instead: it walks from `root & !0xfff`. */
  predicate BootMemory(root: bv64, mem: Sv39.Memory, t: Pte.Table) {
    && root < Sv39.PA_LIMIT && root & 0xfff == 0
    && root as nat in mem && mem[root as nat] == MmuScheme.PreMmu(t)
  }

  /** Every address of a window is canonical and selects that window's slot:
      the slot numbers are VPN[2] of the window starts. */
  lemma RegionSlot(r: Region, va: bv64)
    requires InRegion(r, va)
    ensures Sv39.Canonical(va)
    ensures Sv39.Vpn(va, 2) == Slot(r)
    ensures va & 0x3fff_ffff == va - Start(r)
  {
    RegionCanonical(r, va);
    RegionOffset(r, va);
    match r
    case Identity => assert Sv39.VpnBits(va, 2) == 2;
    case DirectMap => assert Sv39.VpnBits(va, 2) == 0x102;
    case Kernel => assert Sv39.VpnBits(va, 2) == 0x1ff;
  }

  lemma RegionCanonical(r: Region, va: bv64)
    requires InRegion(r, va)
    ensures Sv39.Canonical(va)
  {
  }

  lemma RegionOffset(r: Region, va: bv64)
    requires InRegion(r, va)
    ensures va & 0x3fff_ffff == va - Start(r)
  {
  }

  /** The three slot numbers are in range and are VPN[2] of the window starts. */
  lemma SlotsAreStartIndices(r: Region)
    ensures Slot(r) < Pte.ENTRIES
    ensures Sv39.Vpn(Start(r), 2) == Slot(r)
  {
    RegionSlot(r, Start(r));
  }

  /** Conversely, a canonical address whose VPN[2] is one of the three slots
      lies in the matching window. */
  lemma SlotRegion(va: bv64)
    requires Sv39.Canonical(va)
    ensures Sv39.VpnBits(va, 2) == 2 ==> InRegion(Identity, va)
    ensures Sv39.VpnBits(va, 2) == 0x102 ==> InRegion(DirectMap, va)
    ensures Sv39.VpnBits(va, 2) == 0x1ff ==> InRegion(Kernel, va)
  {
  }

  /** Walking a boot leaf at the root level: a 1 GiB page at 0x8000_0000. */
  lemma BootLeafAddress(va: bv64)
    ensures Sv39.LeafAddress(MmuScheme.PHYS_BASE_PPN, va, 2) == PHYS_BASE + (va & 0x3fff_ffff)
    ensures (MmuScheme.PHYS_BASE_PPN << 12) & Sv39.OffsetMask(2) == 0
  {
  }

  /** The decoded entry `pre_mmu` writes. */
  const BOOT_ENTRY: Pte.Entry := Pte.Entry(0, MmuScheme.PHYS_BASE_PPN, 0, MmuScheme.VRWX_GAD_FLAGS)

  /** After the switch, a walk of an address in a window starts at `root` and
      meets the boot leaf there. */
  lemma RegionEntry(root: bv64, mem: Sv39.Memory, t: Pte.Table, r: Region, va: bv64)
    requires BootMemory(root, mem, t)
    requires InRegion(r, va)
    ensures Satp.Decode(MmuScheme.EnableMmu(root)).mode == Satp.SV39
    ensures Satp.RootAddress(MmuScheme.EnableMmu(root)) == root
    ensures Sv39.Canonical(va)
    ensures Pte.Decode(mem[root as nat][Sv39.Vpn(va, 2)]) == BOOT_ENTRY
    ensures va & 0x3fff_ffff == va - Start(r)
  {
    MmuScheme.EnableMmuAlignedRoot(root);
    RegionSlot(r, va);
    assert MmuScheme.IsBootIndex(Sv39.Vpn(va, 2));
  }

  /** Every address in a mapped window translates, for loads, stores and
      fetches from supervisor mode, to the same offset within the 1 GiB
      physical window at 0x8000_0000. */
  lemma TranslateRegion(root: bv64, mem: Sv39.Memory, t: Pte.Table, r: Region, va: bv64, acc: Sv39.Access)
    requires BootMemory(root, mem, t)
    requires InRegion(r, va)
    ensures Sv39.Translate(MmuScheme.EnableMmu(root), mem, va, acc, Sv39.Supervisor)
            == Sv39.Translated(PHYS_BASE + (va - Start(r)))
  {
    RegionEntry(root, mem, t, r, va);
    BootLeafAddress(va);
    Sv39.TranslateBySv39(MmuScheme.EnableMmu(root), mem, va, acc, Sv39.Supervisor);
    Sv39.WalkAtLeaf(mem, root, va, 2, acc, Sv39.Supervisor, BOOT_ENTRY);
  }

  /** The boot mappings are kernel-only: U is clear, so every user-mode access
      to a window faults. */
  lemma UserAccessDenied(root: bv64, mem: Sv39.Memory, t: Pte.Table, r: Region, va: bv64, acc: Sv39.Access)
    requires BootMemory(root, mem, t)
    requires InRegion(r, va)
    ensures Sv39.Translate(MmuScheme.EnableMmu(root), mem, va, acc, Sv39.User) == Sv39.PageFault(Sv39.Denied)
  {
    RegionEntry(root, mem, t, r, va);
    Sv39.TranslateBySv39(MmuScheme.EnableMmu(root), mem, va, acc, Sv39.User);
    Sv39.WalkAtLeaf(mem, root, va, 2, acc, Sv39.User, BOOT_ENTRY);
  }

  /** The identity window stays identity-mapped, so the code that performs the
      switch keeps running at the same addresses once it takes effect. */
  lemma IdentityWindowIsIdentity(root: bv64, mem: Sv39.Memory, t: Pte.Table, va: bv64, acc: Sv39.Access)
    requires BootMemory(root, mem, t)
    requires InRegion(Identity, va)
    ensures Sv39.Translate(MmuScheme.EnableMmu(root), mem, va, acc, Sv39.Supervisor) == Sv39.Translated(va)
  {
    TranslateRegion(root, mem, t, Identity, va, acc);
  }

  /** A canonical address outside the three windows selects a slot
      `pre_mmu` leaves alone. */
  lemma OutsideSlot(va: bv64)
    requires Sv39.Canonical(va) && !Mapped(va)
    ensures !MmuScheme.IsBootIndex(Sv39.Vpn(va, 2))
  {
    SlotRegion(va);
    var v := Sv39.VpnBits(va, 2);
    assert v != 2 && v != 0x102 && v != 0x1ff;
  }

  /** In any memory whose root table is the one built from the
      zero-initialised static table, an address outside the three windows
      faults: as non-canonical, or on the zero (invalid) root entry it selects. */
  lemma UnmappedFaults(root: bv64, mem: Sv39.Memory, va: bv64, acc: Sv39.Access)
    requires BootMemory(root, mem, Pte.ZERO_TABLE)
    requires !Mapped(va)
    ensures Sv39.Translate(MmuScheme.EnableMmu(root), mem, va, acc, Sv39.Supervisor)
            == Sv39.PageFault(if Sv39.Canonical(va) then Sv39.Invalid else Sv39.NonCanonical)
  {
    MmuScheme.EnableMmuAlignedRoot(root);
    if Sv39.Canonical(va) {
      OutsideSlot(va);
      assert mem[root as nat][Sv39.Vpn(va, 2)] == 0;
      Sv39.TranslateBySv39(MmuScheme.EnableMmu(root), mem, va, acc, Sv39.Supervisor);
      Sv39.WalkAtInvalid(mem, root, va, 2, acc, Sv39.Supervisor);
    }
  }

  /** In any memory whose root table is the one `pre_mmu` builds from the
      zero-initialised static table, a supervisor access translates exactly
      when its address lies in one of the three windows. */
  lemma BootTableMapsExactlyRegions(root: bv64, mem: Sv39.Memory, va: bv64, acc: Sv39.Access)
    requires BootMemory(root, mem, Pte.ZERO_TABLE)
    ensures Sv39.Translate(MmuScheme.EnableMmu(root), mem, va, acc, Sv39.Supervisor).Translated?
            <==> Mapped(va)
  {
    if InRegion(Identity, va) {
      TranslateRegion(root, mem, Pte.ZERO_TABLE, Identity, va, acc);
    } else if InRegion(DirectMap, va) {
      TranslateRegion(root, mem, Pte.ZERO_TABLE, DirectMap, va, acc);
    } else if InRegion(Kernel, va) {
      TranslateRegion(root, mem, Pte.ZERO_TABLE, Kernel, va, acc);
    } else {
      UnmappedFaults(root, mem, va, acc);
    }
  }

  /** Direct-map consistency: `post_mmu`'s offset takes every address of the
      physical load window to a canonical address in the direct-map window,
      which translates back to it. */
  lemma DirectMapRoundTrip(root: bv64, mem: Sv39.Memory, t: Pte.Table, pa: bv64, acc: Sv39.Access)
    requires BootMemory(root, mem, t)
    requires InRegion(Identity, pa)
    ensures Sv39.Canonical(MmuScheme.Relocate(pa))
    ensures InRegion(DirectMap, MmuScheme.Relocate(pa))
    ensures Sv39.Translate(MmuScheme.EnableMmu(root), mem, MmuScheme.Relocate(pa), acc, Sv39.Supervisor)
            == Sv39.Translated(pa)
  {
    var va := MmuScheme.Relocate(pa);
    assert InRegion(DirectMap, va);
    TranslateRegion(root, mem, t, DirectMap, va, acc);
    RegionSlot(DirectMap, va);
  }

  /** After `post_mmu`, the relocated stack pointer reaches the same stack for
      loads and stores, and the instruction it returns to is fetched from the
      same physical place the physical return address named. */
  lemma PostMmuKeepsTargets(root: bv64, mem: Sv39.Memory, t: Pte.Table, c: MmuScheme.Context)
    requires BootMemory(root, mem, t)
    requires InRegion(Identity, c.sp) && InRegion(Identity, c.ra)
    ensures var c' := MmuScheme.PostMmu(c);
            var satp := MmuScheme.EnableMmu(root);
            && Sv39.Translate(satp, mem, c'.sp, Sv39.Load, Sv39.Supervisor) == Sv39.Translated(c.sp)
            && Sv39.Translate(satp, mem, c'.sp, Sv39.Store, Sv39.Supervisor) == Sv39.Translated(c.sp)
            && Sv39.Translate(satp, mem, c'.pc, Sv39.Fetch, Sv39.Supervisor) == Sv39.Translated(c.ra)
  {
    DirectMapRoundTrip(root, mem, t, c.sp, Sv39.Load);
    DirectMapRoundTrip(root, mem, t, c.sp, Sv39.Store);
    DirectMapRoundTrip(root, mem, t, c.ra, Sv39.Fetch);
  }

  /** Starting from the zero-initialised table, exactly the three slots become
      non-zero; the other 509 stay 0. */
  lemma BootTableNonZeroSlots()
    ensures (set i | 0 <= i < Pte.ENTRIES && MmuScheme.BOOT_TABLE[i] != 0) == {2, 0x102, 0x1ff}
  {
  }

  /** The three written slots hold the literal word 0x2000_00ef. */
  lemma BootTableWords()
    ensures MmuScheme.BOOT_TABLE[2] == 0x2000_00ef
    ensures MmuScheme.BOOT_TABLE[0x102] == 0x2000_00ef
    ensures MmuScheme.BOOT_TABLE[0x1ff] == 0x2000_00ef
  {
  }

  /** Running the builder on its own output changes nothing. */
  lemma PreMmuIdempotent(t: Pte.Table)
    ensures MmuScheme.PreMmu(MmuScheme.PreMmu(t)) == MmuScheme.PreMmu(t)
  {
  }
}

=== FILE: mmu_scheme.dfy ===
/** The boot-time MMU set-up of the kernel (lesson1/mmu_scheme/src/lib.rs) for
    the Sv39 configuration: the three-gigapage boot table built by `pre_mmu`,
    the `satp` value chosen by `enable_mmu`, and the register fix-up done by
    `post_mmu`. */
module MmuScheme {
  import Pte
  import Satp
  import Sv39

  /** Virtual address the kernel runs at once relocated. */
  const KERNEL_BASE: bv64 := 0xffff_ffff_c000_0000

  /** Difference between a physical address and its direct-map virtual address. */
  const PHYS_VIRT_OFFSET: bv64 := 0xffff_ffc0_0000_0000

  /** Physical page number of the kernel's load window, 0x8000_0000. */
  const PHYS_BASE_PPN: bv64 := 0x80000

  /** The flag byte "VRWX_GAD". */
  const VRWX_GAD: bv64 := 0xef

  /** V, R, W, X, G, A and D set; U clear. */
  const VRWX_GAD_FLAGS: Pte.Flags := Pte.Flags(true, true, true, true, false, true, true, true)

  /** Table slots written by `pre_mmu`. */
  const IDENTITY_INDEX: nat := 2
  const DIRECT_MAP_INDEX: nat := 0x102
  const KERNEL_INDEX: nat := 0x1ff

  predicate IsBootIndex(i: int) {
    i == IDENTITY_INDEX || i == DIRECT_MAP_INDEX || i == KERNEL_INDEX
  }

  /** The entry `pre_mmu` stores in each slot: a valid, global, kernel-only
      read/write/execute leaf for physical page 0x80000, with A and D preset. */
  function BootLeaf(): (w: bv64)
    ensures w == 0x2000_00ef
    ensures Pte.Decode(w) == Pte.Entry(0, PHYS_BASE_PPN, 0, VRWX_GAD_FLAGS)
    ensures Pte.Decode(w).ppn << 12 == 0x8000_0000
    ensures Pte.IsLeaf(Pte.Decode(w).flags) && !Pte.Decode(w).flags.u
    // PPN[1] and PPN[0] are zero: a correctly aligned gigapage.
    ensures Pte.Decode(w).ppn & 0x3ffff == 0
  {
    (PHYS_BASE_PPN << 10) | VRWX_GAD
  }

  /** The `sv39` branch of `pre_mmu`: three 1 GiB leaves written into the root
      table, every other slot left as it was. */
  function PreMmu(t: Pte.Table): (r: Pte.Table)
    ensures forall i | 0 <= i < Pte.ENTRIES && IsBootIndex(i) ::
              Pte.Decode(r[i]) == Pte.Entry(0, PHYS_BASE_PPN, 0, VRWX_GAD_FLAGS)
    ensures forall i | 0 <= i < Pte.ENTRIES && !IsBootIndex(i) :: r[i] == t[i]
  {
    t[IDENTITY_INDEX := BootLeaf()][DIRECT_MAP_INDEX := BootLeaf()][KERNEL_INDEX := BootLeaf()]
  }

  /** The boot table as it stands after `pre_mmu` ran on the zero-initialised
      static table. */
  const BOOT_TABLE: Pte.Table := PreMmu(Pte.ZERO_TABLE)

  /** The `satp` value `enable_mmu` installs for a root table at physical
      address `root`: mode Sv39, ASID 0, PPN `root >> 12`. */
  function EnableMmu(root: bv64): (w: bv64)
    requires root < Sv39.PA_LIMIT
    ensures Satp.Decode(w).mode == Satp.SV39
    ensures Satp.Decode(w).asid == 0
    ensures Satp.RootAddress(w) == root & !0xfff
  {
    var ppn := root >> 12;
    PageNumberOf(root);
    var w := Satp.Encode(Satp.Fields(Satp.SV39, 0, ppn));
    Satp.RootAddressOfPpn(w);
    w
  }

  /** For a 4 KiB-aligned root, the table the hardware walks from is exactly
      the one `enable_mmu` was given. */
  lemma EnableMmuAlignedRoot(root: bv64)
    requires root < Sv39.PA_LIMIT && root & 0xfff == 0
    ensures Satp.RootAddress(EnableMmu(root)) == root
    ensures Satp.Decode(EnableMmu(root)).ppn << 12 == root
  {
  }

  /** Proof hint for `EnableMmu`: a 56-bit root has a 44-bit page number, and
      shifting it back clears only the page offset. Kept apart so the solver
      meets these bit-vector facts on their own. */
  lemma PageNumberOf(root: bv64)
    requires root < Sv39.PA_LIMIT
    ensures root >> 12 < 0x1000_0000_0000
    ensures (root >> 12) << 12 == root & !0xfff
  {
  }

  /** Wrapping 64-bit addition of the direct-map offset (`bv64` addition is
      addition modulo 2^64). */
  function Relocate(x: bv64): (y: bv64)
    ensures y - PHYS_VIRT_OFFSET == x
    ensures y < x <==> x >= -PHYS_VIRT_OFFSET
  {
    x + PHYS_VIRT_OFFSET
  }

  /** The registers `post_mmu` touches. */
  datatype Context = Context(pc: bv64, sp: bv64, ra: bv64, t0: bv64)

  /** `post_mmu`: load the offset into t0, add it to sp and ra, and return
      through the new ra. `ret` jumps to `ra & !1`; a return address is
      always even (instructions are at least 2-byte aligned), so the new pc
      is the new ra itself. */
  function PostMmu(c: Context): (r: Context)
    ensures r.pc == r.ra
    ensures r.sp - c.sp == PHYS_VIRT_OFFSET && r.ra - c.ra == PHYS_VIRT_OFFSET
    ensures r.t0 == PHYS_VIRT_OFFSET
  {
    var ra := Relocate(c.ra);
    Context(ra, Relocate(c.sp), ra, PHYS_VIRT_OFFSET)
  }

  /** The level index the `sv48` branch of `pre_mmu` computes, `(virt_addr << 10) & 0xef`. */
  function Sv48IndexAsWritten(virtAddr: bv64): bv64 {
    (virtAddr << 10) & 0xef
  }

  /** The `sv48` index expression is 0 whatever the address: the shift clears
      bits 9:0 and the mask keeps only bits 7:0. */
  lemma Sv48IndexAlwaysZero(virtAddr: bv64)
    ensures Sv48IndexAsWritten(virtAddr) == 0
  {
  }
}

=== FILE: pte.dfy ===
/** Page-table entries of the RISC-V Sv39 scheme, as laid out in section 4.4.1 of
    the RISC-V Privileged Architecture (version 20211203), and the 512-entry
    page table that holds them. */
module Pte {

  /** Number of entries in one page table (a 4 KiB page of 8-byte entries). */
  const ENTRIES: nat := 512

  /** A page table: exactly 512 entry words. */
  type Table = t: seq<bv64> | |t| == ENTRIES witness seq(512, _ => 0)

  /** The table a `static` initialiser `[0; 512]` produces. */
  const ZERO_TABLE: Table := seq(512, _ => 0)

  /** Bits 0..7 of an entry. */
  datatype Flags = Flags(v: bool, r: bool, w: bool, x: bool, u: bool, g: bool, a: bool, d: bool)

  /** An entry split into its fields: bits 63:54 (reserved unless an extension
      defines them), the 44-bit physical page number in bits 53:10, the two
      supervisor-software bits 9:8, and the flag byte. */
  datatype Entry = Entry(high: bv64, ppn: bv64, rsw: bv64, flags: Flags)

  const PPN_MASK: bv64 := 0xfff_ffff_ffff

  predicate WellFormed(e: Entry) {
    e.high < 0x400 && e.ppn <= PPN_MASK && e.rsw < 4
  }

  function Bit(w: bv64, mask: bv64): bool {
    w & mask != 0
  }

  /** Reads the flag byte (bits 7:0) of an entry word. */
  function FlagsOf(w: bv64): Flags
  {
    Flags(Bit(w, 0x01), Bit(w, 0x02), Bit(w, 0x04), Bit(w, 0x08),
          Bit(w, 0x10), Bit(w, 0x20), Bit(w, 0x40), Bit(w, 0x80))
  }

  function Set(b: bool, mask: bv64): bv64 {
    if b then mask else 0
  }

  /** The flag byte of `f`; `FlagsOf` reads it back. */
  function FlagByte(f: Flags): (b: bv64)
    ensures b < 0x100
    ensures FlagsOf(b) == f
  {
    Set(f.v, 0x01) | Set(f.r, 0x02) | Set(f.w, 0x04) | Set(f.x, 0x08) |
    Set(f.u, 0x10) | Set(f.g, 0x20) | Set(f.a, 0x40) | Set(f.d, 0x80)
  }

  /** Splits an entry word into its fields. */
  function Decode(w: bv64): (e: Entry)
    ensures WellFormed(e)
    ensures e.flags.v <==> w & 1 == 1
  {
    Entry(w >> 54, (w >> 10) & PPN_MASK, (w >> 8) & 3, FlagsOf(w))
  }

  /** Packs fields into an entry word; `Decode` recovers them. */
  function Encode(e: Entry): (w: bv64)
    requires WellFormed(e)
    ensures Decode(w) == e
  {
    (e.high << 54) | (e.ppn << 10) | (e.rsw << 8) | FlagByte(e.flags)
  }

  /** Every word is the encoding of its own fields: no bit of an entry is lost. */
  lemma EncodeDecode(w: bv64)
    ensures Encode(Decode(w)) == w
  {
  }

  /** A valid entry with R or X set maps memory; with neither it refers to the
      next-level table. */
  predicate IsLeaf(f: Flags) {
    f.r || f.x
  }
}

=== FILE: satp.dfy ===
/** The RV64 `satp` register (section 4.1.11 of the RISC-V Privileged
    Architecture, version 20211203): MODE in bits 63:60, ASID in bits 59:44 and
    the physical page number of the root page table in bits 43:0. */
module Satp {

  /** The MODE encodings this model uses; the others (Sv48 = 9, Sv57 = 10)
      are reported as unsupported by the walk. */
  const BARE: bv64 := 0
  const SV39: bv64 := 8

  datatype Fields = Fields(mode: bv64, asid: bv64, ppn: bv64)

  predicate WellFormed(s: Fields) {
    s.mode < 0x10 && s.asid < 0x1_0000 && s.ppn < 0x1000_0000_0000
  }

  /** Splits a register value into its fields. */
  function Decode(w: bv64): (s: Fields)
    ensures WellFormed(s)
  {
    Fields(w >> 60, (w >> 44) & 0xffff, w & 0xfff_ffff_ffff)
  }

  /** Packs fields into a register value; `Decode` recovers them. */
  function Encode(s: Fields): (w: bv64)
    requires WellFormed(s)
    ensures Decode(w) == s
  {
    (s.mode << 60) | (s.asid << 44) | s.ppn
  }

  /** Every register value is the encoding of its own fields. */
  lemma EncodeDecode(w: bv64)
    ensures Encode(Decode(w)) == w
  {
  }

  /** Physical base address of the root table a register value selects. */
  function RootAddress(w: bv64): (a: bv64)
    ensures a & 0xfff == 0
    ensures a < 0x100_0000_0000_0000
  {
    Decode(w).ppn << 12
  }

  /** Proof hint: unfolds `RootAddress` for callers whose own bit-vector
      context would make the solver slow to do so. */
  lemma RootAddressOfPpn(w: bv64)
    ensures RootAddress(w) == Decode(w).ppn << 12
  {
  }
}

=== FILE: sv39.dfy ===
/** Supervisor virtual-address translation in Sv39 mode: the translation
    process of section 4.3.2 of the RISC-V Privileged Architecture (version
    20211203) with the Sv39 parameters of section 4.4 (three levels, 4 KiB
    pages, 39-bit virtual and 56-bit physical addresses).

    The modelled hart implements neither Svnapot nor Svpbmt (so bits 63:54 of
    an entry are reserved), runs with mstatus.SUM = mstatus.MXR = 0, and
    raises a page fault instead of setting A or D itself. */
module Sv39 {
  import Pte
  import Satp

  const LEVELS: nat := 3

  /** Physical addresses are 56 bits wide. */
  const PA_LIMIT: bv64 := 0x100_0000_0000_0000

  /** Physical memory as seen by the walker: the page tables it may read,
      keyed by their 4 KiB-aligned physical base address (as a number). Reading
      a table that is not here stands for a PMA or PMP check failure. */
  type Memory = map<nat, Pte.Table>

  datatype Access = Load | Store | Fetch

  datatype Privilege = User | Supervisor

  /** Why a walk raised a page fault. */
  datatype Cause =
    | NonCanonical  // bits 63:39 of the address differ from bit 38
    | Invalid       // V clear, W without R, or a reserved bit set
    | NoLeaf        // a non-leaf entry at the last level
    | Denied        // R/W/X/U forbid this access
    | Misaligned    // a superpage whose low PPN fields are not zero
    | NotAccessed   // A clear, or D clear on a store

  datatype Outcome =
    | Translated(pa: bv64)
    | PageFault(cause: Cause)
    | AccessFault(table: bv64)
    | UnsupportedMode(mode: bv64)

  /** Bits 63:39 all equal bit 38. */
  predicate Canonical(va: bv64) {
    va >> 38 == 0 || va >> 38 == 0x3ff_ffff
  }

  /** VPN[i]: the 9-bit index into the level-i table. */
  function VpnBits(va: bv64, i: nat): (v: bv64)
    requires i < LEVELS
    ensures v < 512
  {
    if i == 0 then (va >> 12) & 0x1ff
    else if i == 1 then (va >> 21) & 0x1ff
    else (va >> 30) & 0x1ff
  }

  /** VPN[i] as a table index. */
  function Vpn(va: bv64, i: nat): (k: nat)
    requires i < LEVELS
    ensures k < Pte.ENTRIES
  {
    VpnBits(va, i) as nat
  }

  /** The address bits a leaf at level `i` passes through unchanged: 4 KiB,
      2 MiB and 1 GiB pages. */
  function OffsetMask(i: nat): (m: bv64)
    requires i < LEVELS
    ensures m & 0xfff == 0xfff
    ensures m < 0x4000_0000
  {
    if i == 0 then 0xfff else if i == 1 then 0x1f_ffff else 0x3fff_ffff
  }

  /** Whether a leaf's permission bits allow `acc` from `priv`. */
  predicate Permits(f: Pte.Flags, acc: Access, priv: Privilege) {
    && (match acc
        case Load => f.r
        case Store => f.w
        case Fetch => f.x)
    && (match priv
        case User => f.u
        case Supervisor => !f.u)
  }

  /** Physical address of `va` through a leaf with page number `ppn` at level
      `i`: the offset bits come from `va`, the rest from the entry. */
  function LeafAddress(ppn: bv64, va: bv64, i: nat): (pa: bv64)
    requires i < LEVELS
    requires ppn <= Pte.PPN_MASK
    ensures pa & 0xfff == va & 0xfff
    ensures pa < PA_LIMIT
  {
    Merge(ppn << 12, va, OffsetMask(i))
  }

  /** The bits of `y` under the mask `m`, and the bits of `x` elsewhere. */
  function Merge(x: bv64, y: bv64, m: bv64): bv64 {
    (x & !m) | (y & m)
  }

  /** Step 8 of the translation process: the bits below the page size come
      from the address, the bits above from the entry. */
  lemma LeafAddressFields(ppn: bv64, va: bv64, i: nat)
    requires i < LEVELS && ppn <= Pte.PPN_MASK
    ensures LeafAddress(ppn, va, i) & OffsetMask(i) == va & OffsetMask(i)
    ensures LeafAddress(ppn, va, i) & !OffsetMask(i) == (ppn << 12) & !OffsetMask(i)
  {
    LeafAddressLow(ppn, va, i);
    LeafAddressHigh(ppn, va, i);
  }

  lemma LeafAddressLow(ppn: bv64, va: bv64, i: nat)
    requires i < LEVELS && ppn <= Pte.PPN_MASK
    ensures LeafAddress(ppn, va, i) & OffsetMask(i) == va & OffsetMask(i)
  {
    MergeLow(ppn << 12, va, OffsetMask(i));
  }

  lemma LeafAddressHigh(ppn: bv64, va: bv64, i: nat)
    requires i < LEVELS && ppn <= Pte.PPN_MASK
    ensures LeafAddress(ppn, va, i) & !OffsetMask(i) == (ppn << 12) & !OffsetMask(i)
  {
    MergeHigh(ppn << 12, va, OffsetMask(i));
  }

  /** Merging keeps the bits of `y` under the mask ... */
  lemma MergeLow(x: bv64, y: bv64, m: bv64)
    ensures Merge(x, y, m) & m == y & m
  {
  }

  /** ... and the bits of `x` outside it. */
  lemma MergeHigh(x: bv64, y: bv64, m: bv64)
    ensures Merge(x, y, m) & !m == x & !m
  {
  }

  /** A gigapage whose PPN[1] and PPN[0] are zero maps `va` to
      (PPN[2] << 30) | VA[29:0]. */
  lemma GigapageAddress(ppn: bv64, va: bv64)
    requires ppn <= Pte.PPN_MASK && ppn & 0x3ffff == 0
    ensures LeafAddress(ppn, va, 2) == ((ppn >> 18) << 30) | (va & 0x3fff_ffff)
  {
  }

  /** Steps 2 to 8 of the translation process, starting at level `i` with the
      table at physical address `a`. */
  function Walk(mem: Memory, a: bv64, va: bv64, i: nat, acc: Access, priv: Privilege): (r: Outcome)
    requires i < LEVELS
    ensures r.Translated? ==> r.pa & 0xfff == va & 0xfff && r.pa < PA_LIMIT
    ensures r.UnsupportedMode? == false
    decreases i
  {
    if a as nat !in mem then AccessFault(a)
    else
      var table: Pte.Table := mem[a as nat];
      var e := Pte.Decode(table[Vpn(va, i)]);
      var f := e.flags;
      if !f.v || (!f.r && f.w) || e.high != 0 then PageFault(Invalid)
      else if !Pte.IsLeaf(f) then
        // D, A and U are reserved in a non-leaf entry.
        if f.u || f.a || f.d then PageFault(Invalid)
        else if i == 0 then PageFault(NoLeaf)
        else Walk(mem, e.ppn << 12, va, i - 1, acc, priv)
      else if !Permits(f, acc, priv) then PageFault(Denied)
      else if (e.ppn << 12) & OffsetMask(i) != 0 then PageFault(Misaligned)
      else if !f.a || (acc == Store && !f.d) then PageFault(NotAccessed)
      else Translated(LeafAddress(e.ppn, va, i))
  }

  /** Translation of `va` under the register value `satp`. */
  function Translate(satp: bv64, mem: Memory, va: bv64, acc: Access, priv: Privilege): (r: Outcome)
    ensures Satp.Decode(satp).mode == Satp.BARE ==> r == Translated(va)
    ensures Satp.Decode(satp).mode == Satp.SV39 && r.Translated? ==>
              Canonical(va) && r.pa & 0xfff == va & 0xfff && r.pa < PA_LIMIT
    ensures r.UnsupportedMode? <==> Satp.Decode(satp).mode !in {Satp.BARE, Satp.SV39}
  {
    var mode := Satp.Decode(satp).mode;
    if mode == Satp.BARE then Translated(va)
    else if mode != Satp.SV39 then UnsupportedMode(mode)
    else if !Canonical(va) then PageFault(NonCanonical)
    else Walk(mem, Satp.RootAddress(satp), va, LEVELS - 1, acc, priv)
  }

  /** With Sv39 selected, a canonical address is translated by a walk from the
      root table at level 2. */
  lemma TranslateBySv39(satp: bv64, mem: Memory, va: bv64, acc: Access, priv: Privilege)
    requires Satp.Decode(satp).mode == Satp.SV39 && Canonical(va)
    ensures Translate(satp, mem, va, acc, priv) == Walk(mem, Satp.RootAddress(satp), va, LEVELS - 1, acc, priv)
  {
  }

  /** A walk that meets a valid leaf at level `i` depends only on that leaf. */
  lemma WalkAtLeaf(mem: Memory, a: bv64, va: bv64, i: nat, acc: Access, priv: Privilege, e: Pte.Entry)
    requires i < LEVELS && a as nat in mem
    requires Pte.Decode(mem[a as nat][Vpn(va, i)]) == e
    requires e.flags.v && Pte.IsLeaf(e.flags) && (e.flags.r || !e.flags.w) && e.high == 0
    ensures Walk(mem, a, va, i, acc, priv) ==
              if !Permits(e.flags, acc, priv) then PageFault(Denied)
              else if (e.ppn << 12) & OffsetMask(i) != 0 then PageFault(Misaligned)
              else if !e.flags.a || (acc == Store && !e.flags.d) then PageFault(NotAccessed)
              else Translated(LeafAddress(e.ppn, va, i))
  {
  }

  /** A walk that meets an entry with V clear stops with a page fault. */
  lemma WalkAtInvalid(mem: Memory, a: bv64, va: bv64, i: nat, acc: Access, priv: Privilege)
    requires i < LEVELS && a as nat in mem
    requires !Pte.Decode(mem[a as nat][Vpn(va, i)]).flags.v
    ensures Walk(mem, a, va, i, acc, priv) == PageFault(Invalid)
  {
  }
}
